=== FILE: README.md ===
# golog level handling, modelled in Dafny

golog is a leveled-logging facade for Go with three backends: the plain
`GoLog` logger of the root package, the pretty console logger (`prettylog`),
and two wrappers around the zerolog library (the `zerolog` sub-package and
`GoZeroLog` in the root package). This project models what the repository
decides for itself:

- which messages get through: the plain logger's `LoggingLevel >= level`
  gate, and the pretty logger's gate, which admits a message when either
  its own level or the global level does;
- what label and line a message gets: `[LABEL] [ns] text`, with the
  bold-colour escape wrapping of the plain logger's Fatal/Error/Warn/Info,
  and the pretty logger's label, painted for ERROR, WARN and INFO by the
  `color.Print<Colour>MaxWidth` helpers with width 5 (its FATAL case is
  empty, so FATAL keeps the plain name);
- that the pretty logger's `Fatal` always exits, the plain one never does;
- how a golog level is translated into the zerolog level handed to a
  setter: a Go `switch` that takes the first matching arm and does not fall
  through, so the empty DEBUG arm calls no setter at all, TRACE becomes
  debug, and everything unlisted becomes info; the sub-package has a
  DISABLED arm, the root package does not;
- the option loop of the pretty logger's `New` and of the sub-package's
  `newZeroLogger`: options applied in list order, the first failing one
  ending the construction with its error.

Files: `common.dfy` (Option, Result, the `Emission` of a level call, the
format-argument stand-in), `golog.dfy` (golog.go), `options.dfy` (the
option loop shared by both constructors), `prettylog.dfy`
(prettylog/prettylog.go), `zerolog_api.dfy` (the zerolog levels and logger
state the wrappers use), `zerolog_backend.dfy` (zerolog/zerolog.go),
`gozerolog.dfy` (zerolog.go).

Levels are unbounded `int`s. golog.go declares FATAL..TRACE as
the ints 1..6 with OFF = 0; the sub-packages use a `golog.Level` type, the
global level, `DISABLED` and `Level.String`, none of which is defined in
the files modelled here. The model therefore takes the FATAL..TRACE
ordinals from golog.go, and passes the global level (`globalLevel`, or
`threshold` for the plain logger's `LoggingLevel`), the DISABLED ordinal
(`disabled`) and the zero value of `golog.Level` (`zero`) as parameters.
The helpers the sources call but do not define (`Level.String`, the
`color` helpers, `util.FormatString`, `formatString`) are parameters too:
a `Formatter` for the message, and a `Renderer` that turns the pretty
logger's symbolic label and text into characters; `Render` reads
`util.FormatString("[%-5s] [%s] %s", …)` as `fmt.Sprintf` would, padding the
label with spaces to five characters. Whether `os.OpenFile`
succeeds is a field (`opens`) of the file option.

Three facts about the code shape the gate lemmas:

- prettylog/prettylog.go:104 ORs the logger's level with the global level,
  so a logger's own level can only widen what is shown, never narrow it
  (`PrettyLog.InstanceLevelOnlyWidens`, `PrettyLog.InstanceLevelDoesNotNarrow`);
- the pretty logger's gate has no DISABLED test: it only compares ordinals;
- golog.go has OFF = 0 and FATAL = 1 and no DISABLED constant, so the
  DISABLED ordinal the zerolog sub-package uses is a parameter.

## Model

| member | source | states |
|---|---|---|
| Golog.LevelOrdinalsIncrease | golog.go:14-36 | OFF is 0 and the levels strictly increase OFF < FATAL < ERROR < WARN < INFO < DEBUG < TRACE |
| Golog.Label | golog.go:114-126 | the label is one of the six level names, is "TRACE" exactly when the level is not one of FATAL..DEBUG, and never holds `]` |
| Golog.LabelNamesLevel | golog.go:114-126 | a label names its level back for FATAL..TRACE; any other int, out-of-range values included, reads back as TRACE |
| Golog.Print | golog.go:112-129 | a line is produced exactly when the global threshold is at least the level, and it is the `[label] [ns] s` line |
| Golog.Line | golog.go:127 | a plain line is `[`, the label, `] [`, the namespace, `] `, then the message, each part at a fixed offset given by the lengths before it |
| Golog.LineRoundTrip | golog.go:127 | the line splits back into label, namespace and message whenever label and namespace hold no `]` |
| Golog.EmittedLineReadsBack | golog.go:111-164 | from every line a method writes for a namespace holding no `]`, a reader recovers the method's level, the namespace and the message (unwrapped from its colour for Fatal..Info) |
| Golog.Wrap | golog.go:133 | the coloured text is the bold SGR prefix for the colour, then the message unchanged, then the 4-character reset |
| Golog.WrapRoundTrip | golog.go:133 | stripping the colour prefix and reset from a wrapped text gives the message back |
| Golog.ColourOnInjective | golog.go:133 | two colours give the same escape prefix only if they are the same colour |
| Golog.Decimal | golog.go:133 | `%v` of a colour is a non-empty digit string, with a leading minus exactly for negative values |
| Golog.NatDigits | golog.go:133 | the digits of a non-negative number are a non-empty string of decimal digits with no leading zero |
| Golog.DigitsRoundTrip | golog.go:133 | the digits printed for a non-negative number denote that number |
| Golog.DecimalRoundTrip | golog.go:133 | the printed form of every int parses back to that int |
| Golog.DecimalInjective | golog.go:133 | two ints print the same only if they are equal |
| Golog.ColourCodes | golog.go:42-61 | RED..CYAN print as the SGR codes "31".."36" |
| Golog.PrintColour | golog.go:132-134 | a coloured print is gated like `print` and writes the colour-wrapped message under the logger's namespace |
| Golog.Fatal | golog.go:137-139 | FATAL is written iff the threshold is at least FATAL, red, and the call does not end the process |
| Golog.Error | golog.go:142-144 | ERROR is written iff the threshold is at least ERROR, red, without exiting |
| Golog.Warn | golog.go:147-149 | WARN is written iff the threshold is at least WARN, yellow, without exiting |
| Golog.Info | golog.go:152-154 | INFO is written iff the threshold is at least INFO, green, without exiting |
| Golog.Debug | golog.go:157-159 | DEBUG is written iff the threshold is at least DEBUG, uncoloured |
| Golog.Trace | golog.go:162-164 | TRACE is written iff the threshold is at least TRACE, uncoloured |
| Golog.Method | golog.go:137-164 | the method for a level writes exactly when the threshold is at least that level, writes that level's label, the namespace and the message (colour-wrapped for FATAL..INFO), and never exits |
| Golog.VisibilityMonotone | golog.go:113 | a message shown at one threshold is shown, identically, at every higher threshold |
| Golog.SilentWhenOff | golog.go:111-164 | with the threshold at OFF none of the six methods writes anything |
| Golog.DefaultThreshold | golog.go:111-164 | at the initial LoggingLevel (INFO) Fatal, Error, Warn and Info write and Debug and Trace do not |
| Golog.NoMethodExits | golog.go:136-164 | no method of the plain logger, Fatal included, ends the process |
| Options.FirstFailure | prettylog/prettylog.go:94-98 | the index found is the first option that fails; none is found exactly when no option fails |
| Options.RunOutcome | prettylog/prettylog.go:94-99 | the loop ends with the first failing option's error, or, when none fails, with every option's effect applied in order |
| Options.ApplyInOrder | prettylog/prettylog.go:94-99 | the loop agrees with its recursive definition and stops right after the first failing option, having invoked exactly the options up to it |
| PrettyLog.Initial | prettylog/prettylog.go:88-91 | the logger before any option has an empty namespace, the zero level, no file, and writes to standard output with the date and time flags |
| PrettyLog.Effect | prettylog/prettylog.go:25-67 | WithNameSpace sets only the namespace; WithFlags sets only the output's flags; WithLevel sets only the level; WithFileOutput sets the file and the output's destination to that file and keeps flags, level and namespace |
| PrettyLog.OpenFailure | prettylog/prettylog.go:51-67 | an option fails exactly when it is a file option whose file cannot be opened, and the error names that file |
| PrettyLog.SetLevel | prettylog/prettylog.go:121-123 | the level becomes the given one; namespace, output and file are unchanged |
| PrettyLog.SetLevelLastWins | prettylog/prettylog.go:121-123 | setting the level twice is the same as setting it once to the second value |
| PrettyLog.WithLevelIsSetLevel | prettylog/prettylog.go:42-47 | the WithLevel option has exactly SetLevel's effect and never fails |
| PrettyLog.ConfiguredNamespace | prettylog/prettylog.go:25-30 | after the options the namespace is the one set by the last WithNameSpace, or the previous one if there is none |
| PrettyLog.ConfiguredLevel | prettylog/prettylog.go:42-47 | after the options the level is the one set by the last WithLevel, or the previous one if there is none |
| PrettyLog.New | prettylog/prettylog.go:87-100 | construction fails exactly when some file option fails, with the first such option's file name and after invoking no later option; otherwise the namespace is the last one given (empty with no options) and the level the last one given (the zero value without one) |
| PrettyLog.Visible | prettylog/prettylog.go:104 | a message is visible exactly when its level is at most the more verbose of the logger's level and the global level |
| PrettyLog.InstanceLevelOnlyWidens | prettylog/prettylog.go:104 | whatever the global level admits is printed, whatever level the logger is set to |
| PrettyLog.InstanceLevelDoesNotNarrow | prettylog/prettylog.go:104 | an illustration of InstanceLevelOnlyWidens: a logger set to ERROR still prints INFO while the global level is DEBUG |
| PrettyLog.VisibilityMonotone | prettylog/prettylog.go:104 | raising the global level or the logger's level never hides a visible message |
| PrettyLog.LabelOf | prettylog/prettylog.go:105-114 | ERROR, WARN and INFO get labels painted red, yellow and green by the `*MaxWidth` helpers with width 5; every other level, FATAL included, keeps its plain name |
| PrettyLog.Print | prettylog/prettylog.go:103-117 | a line is produced exactly when the logger's or the global level admits the level, with that level's label, the given namespace and the text |
| PrettyLog.PrintColour | prettylog/prettylog.go:126-128 | a coloured print, in any colour value, is gated the same way and carries the text in that colour under the logger's namespace |
| PrettyLog.Fatal | prettylog/prettylog.go:131-134 | Fatal always ends the process; its line, when visible, has the plain FATAL label and red text |
| PrettyLog.Error | prettylog/prettylog.go:137-139 | Error gates at ERROR, with a red label and red text, and returns |
| PrettyLog.Warn | prettylog/prettylog.go:142-144 | Warn gates at WARN, with a yellow label and yellow text, and returns |
| PrettyLog.Info | prettylog/prettylog.go:147-149 | Info gates at INFO, with a green label and green text, and returns |
| PrettyLog.Debug | prettylog/prettylog.go:152-154 | Debug gates at DEBUG, with plain label and text, and returns |
| PrettyLog.Trace | prettylog/prettylog.go:157-159 | Trace gates at TRACE, with plain label and text, and returns |
| PrettyLog.Method | prettylog/prettylog.go:130-159 | the message a method prints is red for Fatal and Error, yellow for Warn, green for Info, and plain for Debug and Trace |
| PrettyLog.MethodsGateAtOwnLevel | prettylog/prettylog.go:130-159 | each method is visible exactly when its own level is, labels the line with its own level, and only Fatal exits |
| PrettyLog.FatalExitsWhenFiltered | prettylog/prettylog.go:131-134 | a Fatal below both thresholds writes nothing and still exits |
| PrettyLog.PadRight | prettylog/prettylog.go:115 | `%-5s` keeps the label and pads it with spaces to at least five characters |
| PrettyLog.Render | prettylog/prettylog.go:115 | a rendered line is `[`, the label in a space-padded field of at least five, `] [`, the namespace, `] `, then the text |
| ZeroLogBackend.SetLoggerLevel | zerolog/zerolog.go:90-106 | the setter is called at most once and not at all exactly for DEBUG; FATAL, ERROR, WARN map to their zerolog levels, TRACE to debug, the DISABLED ordinal (when it is not an earlier arm) to Disabled, every other level to info |
| ZeroLogBackend.InfoMapsToInfoLevel | zerolog/zerolog.go:103-104 | INFO, which has no arm, maps to info whenever it is not the DISABLED ordinal |
| ZeroLogBackend.SetGlobalLevel | zerolog/zerolog.go:83-87 | the global handler leaves zerolog's global level unchanged for DEBUG and otherwise sets it to the translated level |
| ZeroLogBackend.SetLevel | zerolog/zerolog.go:117-121 | SetLevel leaves the wrapper as it was and calls the setter at most once |
| ZeroLogBackend.SharedMapping | zerolog/zerolog.go:83-121 | the global handler and SetLevel hand their setters the same argument for every level |
| ZeroLogBackend.Effect | zerolog/zerolog.go:28-72 | WithNameSpace appends one `ns` field and keeps output and file; WithPrettyConsole switches the output to the console writer and keeps fields and file; WithLevel leaves the wrapper as it was; WithFileOutput sets the file and sends output to it, keeping the fields |
| ZeroLogBackend.OpenFailure | zerolog/zerolog.go:56-72 | an option fails exactly when it is a file option whose file cannot be opened, and the error names that file |
| ZeroLogBackend.WithLevelIsSetLevel | zerolog/zerolog.go:47-52 | the WithLevel option has SetLevel's effect on the wrapper and never fails |
| ZeroLogBackend.ConfiguredFields | zerolog/zerolog.go:28-33 | after the options the logger's context holds one `ns` field per WithNameSpace, in list order, after its earlier fields |
| ZeroLogBackend.NewZeroLogger | zerolog/zerolog.go:130-141 | construction fails exactly when some file option fails, with the first such option's name and no later option invoked; otherwise every option's effect is applied in order |
| ZeroLogBackend.New | zerolog/zerolog.go:110-113 | New fails exactly when a file option fails, with the first such option's file name and no later option invoked; otherwise it is every option applied in order to a fileless wrapper around the JSON logger on standard error, so it carries the namespace fields in order and, with only namespace options, writes JSON to standard error |
| ZeroLogBackend.SinkKeptByNamespaces | zerolog/zerolog.go:28-33 | namespace options change neither the output nor the file |
| ZeroLogBackend.FileKeptWithoutFileOptions | zerolog/zerolog.go:28-72 | options other than WithFileOutput never set the wrapper's file |
| ZeroLogBackend.SubLogger | zerolog/zerolog.go:125-141 | a sub-logger fails exactly when a file option fails, with the first such option's file name and no later option invoked; otherwise it is every option applied in order to a fresh wrapper around the parent's zerolog logger, so it keeps the parent's context fields, adds its own namespace fields, and does not inherit the parent's file |
| ZeroLogBackend.Fatal | zerolog/zerolog.go:144-146 | Fatal sends the formatted message to the wrapped logger at fatal level |
| ZeroLogBackend.Error | zerolog/zerolog.go:149-151 | Error sends the formatted message at error level |
| ZeroLogBackend.Warn | zerolog/zerolog.go:154-156 | Warn sends the formatted message at warn level |
| ZeroLogBackend.Info | zerolog/zerolog.go:159-161 | Info sends the formatted message at info level |
| ZeroLogBackend.Debug | zerolog/zerolog.go:164-166 | Debug sends the formatted message at debug level |
| ZeroLogBackend.Trace | zerolog/zerolog.go:169-174 | Trace formats the message and passes it to Debug as a format with no arguments, so it is sent at debug level |
| ZeroLogBackend.Method | zerolog/zerolog.go:144-174 | every method sends to the wrapped logger; all but Trace send the formatted message, Trace sends the formatted message formatted again with no arguments |
| ZeroLogBackend.MethodSeverityMatchesTranslation | zerolog/zerolog.go:90-174 | for FATAL..TRACE other than DEBUG, the level a method sends at is exactly the one the translation hands the setter; DEBUG's arm sets nothing while Debug still sends at debug (the DISABLED ordinal lying outside FATAL..TRACE) |
| GoZeroLog.SetLoggerLevel | zerolog.go:28-42 | the setter is called at most once, never with Disabled, not at all exactly for DEBUG; FATAL, ERROR, WARN map to their zerolog levels, TRACE to debug, every other int to info |
| GoZeroLog.SetZeroGlobalLevel | zerolog.go:22-26 | the global level is unchanged for DEBUG, otherwise the translated level, and never becomes Disabled unless it already was |
| GoZeroLog.OffDoesNotDisable | zerolog.go:39-40 | OFF maps to info, so it never switches this backend off |
| GoZeroLog.AgreesWithBackend | zerolog.go:28-42 | the root translation equals the sub-package's for every level except the DISABLED ordinal when that ordinal has no earlier arm |
| GoZeroLog.AgreesOnNamedLevels | zerolog.go:28-42 | on FATAL..TRACE both translations coincide whenever the DISABLED ordinal lies outside that range |
| GoZeroLog.NewZeroLogger | zerolog.go:46-49 | the new logger stores the namespace, writes JSON to standard error with no context fields, and its Context is built from that same logger |
| GoZeroLog.NewPrettyZeroLogger | zerolog.go:53-56 | the new logger stores the namespace, writes through the console writer, and its Context is built from that same logger |
| GoZeroLog.SubLogger | zerolog.go:68-71 | a sub-logger stores the new namespace over the parent's zerolog logger and context |
| GoZeroLog.SetInstanceLevel | zerolog.go:60-64 | SetLoggerLevel leaves the logger as it was and calls the setter at most once, never with Disabled |
| GoZeroLog.InstanceAndGlobalShareMapping | zerolog.go:22-64 | the global and the instance setter receive the same argument for every level |
| GoZeroLog.Fatal | zerolog.go:83-85 | Fatal sends the formatted message at fatal level |
| GoZeroLog.Error | zerolog.go:88-90 | Error sends the formatted message at error level |
| GoZeroLog.Warn | zerolog.go:93-95 | Warn sends the formatted message at warn level |
| GoZeroLog.Info | zerolog.go:98-100 | Info sends the formatted message at info level |
| GoZeroLog.Debug | zerolog.go:103-105 | Debug sends the formatted message at debug level |
| GoZeroLog.Trace | zerolog.go:108-113 | Trace formats the message and passes it to Debug, so it is sent at debug level |
| GoZeroLog.Method | zerolog.go:82-113 | every method sends to the wrapped zerolog logger; all but Trace send the formatted message, Trace sends the formatted message formatted again with no arguments |
| GoZeroLog.MethodSeverityMatchesTranslation | zerolog.go:28-113 | for FATAL..TRACE other than DEBUG, the level a method sends at is exactly the one the translation hands the setter; DEBUG's arm sets nothing while Debug still sends at debug |
| GoZeroLog.NamespaceNotRead | zerolog.go:74-113 | loggers differing only in their stored namespace send identical events from every method |

## Left out

- cmd/example.go: a demonstration program with flag parsing and no logic of its own.
- `OutputToFile`, `Close` and the `os.OpenFile` calls: operating-system I/O; the file options carry the outcome of the open as a field, and the model does not track open file handles or closing them.
- The global level cell, `SetGlobalLevel`, `LevelChangeNotifier` registration, `LevelFromString` and `Level.String`: they are not defined in the modelled files; the global level is a parameter and the zerolog handler is modelled as the function it registers.
- `util.FormatString`, `formatString` and the `color` helpers: foreign code. The message formatting is passed in as a `Formatter` and the colour helpers as a `Renderer`; only the three literal layouts (golog.go:127, golog.go:133, prettylog/prettylog.go:115) are spelled out.
- PrettyLog.Render: reads util.FormatString's `[%-5s] [%s] %s` layout as `fmt.Sprintf` would (left-justified, space-padded to five); util.FormatString is not part of this model, so this reading is an assumption, not a consequence of its code.
- Golog.EmittedLineReadsBack: the plain line does not quote its parts, so a namespace holding `]` makes it ambiguous (the line for label INFO, namespace `a] b` and message `m` reads back as namespace `a` and message `b] m`); the read-back is promised only for namespaces without `]`.
- Strings: modelled as sequences of characters, while Go strings are bytes and `%-5s` pads by runes; the two widths agree for valid UTF-8, and the plain level names it pads are ASCII.
- `Arg`: the `...interface{}` arguments are narrowed to strings and ints; the formatter that consumes them is uninterpreted, so no property depends on their type.
- The error an option returns: the model records only the file name where the source returns the error of `os.OpenFile`.
- The zerolog library itself: JSON and console encoding, timestamps (the model's starting logger omits `.Timestamp()`), its own level filtering, and the process exit of its Fatal events.
- `WithFlags` and the `log.Logger` date/time prefixes: the flag value is recorded, its rendering is not.
- Concurrency: the global level and the loggers are treated as values; no atomicity or ordering of concurrent calls is modelled.
- ZeroLogBackend.SetLevel: that the wrapper is unchanged rests on zerolog's `Logger.Level` returning a new logger, which the source discards; zerolog's code is not part of this model.
- Go's 64-bit `int`: the levels are only compared, never computed with, so unbounded integers give the same results.

=== FILE: common.dfy ===
/** Small datatypes shared by every logger model: optional values, results
    with an error, what a logging call produced, and the stand-in for Go's
    variadic `interface{}` format arguments. */
module Common {

  datatype Option<+T> = None | Some(value: T)

  datatype Result<+R, +E> = Success(value: R) | Failure(error: E)

  /** What one call of a level method produced: the line handed to the
      output (if the message got through the level gate) and whether the
      call ended the process (`os.Exit`). */
  datatype Emission<+L> = Emission(line: Option<L>, exited: bool)

  /** A value passed in the `params ...interface{}` list of a level method. */
  datatype Arg = Str(s: string) | Int(i: int)

  /** A rendering of a format template and its arguments (`util.FormatString`
      or the root package's `formatString`); their code is outside this model,
      so every operation that formats takes the renderer as a parameter. */
  type Formatter = (string, seq<Arg>) -> string
}

=== FILE: golog.dfy ===
/** The plain logger of the root package: integer levels, the global
    `LoggingLevel` gate, the level label, the `[L] [ns] s` line and the
    ANSI colour wrapping of the Fatal/Error/Warn/Info methods.

    The global `LoggingLevel` is passed to every operation as `threshold`;
    the `log.Logger` that prints the line (date/time prefix, output stream)
    is outside the model, so an operation returns the line it would print. */
module Golog {
  import opened Common

  // The levels are plain ints; a larger ordinal is more verbose.
  const OFF: int := 0
  const FATAL: int := 1
  const ERROR: int := 2
  const WARN: int := 3
  const INFO: int := 4
  const DEBUG: int := 5
  const TRACE: int := 6

  /** The value `LoggingLevel` starts with. */
  const DefaultLoggingLevel: int := INFO

  /** SGR colour codes; `Colour` is an int type in the source, so any int
      may be passed to `PrintColour`. */
  type Colour = int
  const RED: Colour := 31
  const GREEN: Colour := 32
  const YELLOW: Colour := 33
  const BLUE: Colour := 34
  const MAG: Colour := 35
  const CYAN: Colour := 36

  const ESC: char := 27 as char

  /** A logger bound to a namespace (`New(ns)`). */
  datatype GoLog = GoLog(ns: string)

  lemma LevelOrdinalsIncrease()
    ensures OFF == 0
    ensures OFF < FATAL < ERROR < WARN < INFO < DEBUG < TRACE
    ensures TRACE - OFF == 6
  {
  }

  // ---------------------------------------------------------------------
  // Decimal rendering of an int, as `%v` prints it

  predicate IsDigit(c: char) {
    '0' <= c <= '9'
  }

  function DigitChar(d: nat): (c: char)
    requires d < 10
    ensures IsDigit(c)
    ensures c as int - '0' as int == d
  {
    ('0' as int + d) as char
  }

  /** The decimal digits of `n`, most significant first, without leading zeros. */
  function NatDigits(n: nat): (r: string)
    ensures 1 <= |r|
    ensures forall k :: 0 <= k < |r| ==> IsDigit(r[k])
    ensures |r| > 1 ==> r[0] != '0'
    decreases n
  {
    if n < 10 then [DigitChar(n)] else NatDigits(n / 10) + [DigitChar(n % 10)]
  }

  /** The number a string of decimal digits denotes. */
  function DigitsValue(s: string): nat
    requires forall k :: 0 <= k < |s| ==> IsDigit(s[k])
    decreases |s|
  {
    if s == [] then 0
    else
      var last := s[|s| - 1];
      assert IsDigit(last);
      DigitsValue(s[..|s| - 1]) * 10 + (last as int - '0' as int)
  }

  lemma {:induction false} DigitsRoundTrip(n: nat)
    ensures DigitsValue(NatDigits(n)) == n
    decreases n
  {
    if n >= 10 {
      var hi := NatDigits(n / 10);
      var r := NatDigits(n);
      assert r == hi + [DigitChar(n % 10)];
      assert r[..|r| - 1] == hi;
      DigitsRoundTrip(n / 10);
    }
  }

  /** `%v` of an int: an optional minus sign followed by the digits. */
  function Decimal(n: int): (r: string)
    ensures 1 <= |r|
    ensures (r[0] == '-') <==> n < 0
    ensures forall k :: (if n < 0 then 1 else 0) <= k < |r| ==> IsDigit(r[k])
    ensures n < 0 ==> 2 <= |r|
  {
    if n < 0 then "-" + NatDigits(-n) else NatDigits(n)
  }

  /** Reads back a string produced by `Decimal`. */
  function ParseDecimal(s: string): Option<int> {
    if |s| >= 1 && s[0] != '-' && forall k :: 0 <= k < |s| ==> IsDigit(s[k]) then
      Some(DigitsValue(s))
    else if |s| >= 2 && s[0] == '-' && forall k :: 1 <= k < |s| ==> IsDigit(s[k]) then
      var magnitude: int := DigitsValue(s[1..]);
      Some(-magnitude)
    else None
  }

  lemma DecimalRoundTrip(n: int)
    ensures ParseDecimal(Decimal(n)) == Some(n)
  {
    if n < 0 {
      DigitsRoundTrip(-n);
      assert Decimal(n)[1..] == NatDigits(-n);
    } else {
      DigitsRoundTrip(n);
    }
  }

  lemma DecimalInjective(a: int, b: int)
    ensures Decimal(a) == Decimal(b) <==> a == b
  {
    DecimalRoundTrip(a);
    DecimalRoundTrip(b);
  }

  lemma ColourCodes()
    ensures Decimal(RED) == "31" && Decimal(GREEN) == "32" && Decimal(YELLOW) == "33"
    ensures Decimal(BLUE) == "34" && Decimal(MAG) == "35" && Decimal(CYAN) == "36"
  {
  }

  // ---------------------------------------------------------------------
  // Colour wrapping: ESC[<colour>;1m <text> ESC[0m

  function ColourOn(colour: Colour): string {
    [ESC, '['] + Decimal(colour) + ";1m"
  }

  const ColourOff: string := [ESC, '[', '0', 'm']

  /** The text `PrintColour` hands to `print`: the message in bold colour,
      followed by a reset. */
  function Wrap(colour: Colour, s: string): (r: string)
    ensures |r| == |ColourOn(colour)| + |s| + 4
    ensures r[..|ColourOn(colour)|] == ColourOn(colour)
    ensures r[|r| - 4..] == ColourOff
    ensures r[|ColourOn(colour)|..|r| - 4] == s
  {
    ColourOn(colour) + s + ColourOff
  }

  /** Strips the bold-colour prefix of `colour` and the reset suffix, if
      both are there. */
  function Unwrap(colour: Colour, t: string): Option<string> {
    var on := ColourOn(colour);
    if |t| >= |on| + 4 && t[..|on|] == on && t[|t| - 4..] == ColourOff then
      Some(t[|on|..|t| - 4])
    else None
  }

  lemma WrapRoundTrip(colour: Colour, s: string)
    ensures Unwrap(colour, Wrap(colour, s)) == Some(s)
  {
  }

  /** Two colours never produce the same prefix, so the colour can be read
      back from a wrapped text. */
  lemma ColourOnInjective(a: Colour, b: Colour)
    ensures ColourOn(a) == ColourOn(b) <==> a == b
  {
    if ColourOn(a) == ColourOn(b) {
      var da, db := Decimal(a), Decimal(b);
      assert ColourOn(a)[2..] == da + ";1m";
      assert ColourOn(b)[2..] == db + ";1m";
      assert |da| == |db|;
      assert da == (da + ";1m")[..|da|];
      assert db == (db + ";1m")[..|db|];
      DecimalInjective(a, b);
    }
  }

  // ---------------------------------------------------------------------
  // Label and line

  /** The label `print` writes for `level`: the level's name for FATAL to
      DEBUG, and "TRACE" for every other int. */
  function Label(level: int): (l: string)
    ensures l in {"FATAL", "ERROR", "WARN", "INFO", "DEBUG", "TRACE"}
    ensures l == "TRACE" <==> !(FATAL <= level <= DEBUG)
    ensures ']' !in l
  {
    if level == FATAL then "FATAL"
    else if level == ERROR then "ERROR"
    else if level == WARN then "WARN"
    else if level == INFO then "INFO"
    else if level == DEBUG then "DEBUG"
    else "TRACE"
  }

  /** The level a label names. */
  function LevelOfLabel(l: string): Option<int> {
    if l == "FATAL" then Some(FATAL)
    else if l == "ERROR" then Some(ERROR)
    else if l == "WARN" then Some(WARN)
    else if l == "INFO" then Some(INFO)
    else if l == "DEBUG" then Some(DEBUG)
    else if l == "TRACE" then Some(TRACE)
    else None
  }

  /** Every level from FATAL to TRACE is recovered from its label; every
      other int reads back as TRACE. */
  lemma LabelNamesLevel(level: int)
    ensures FATAL <= level <= TRACE ==> LevelOfLabel(Label(level)) == Some(level)
    ensures !(FATAL <= level <= TRACE) ==> LevelOfLabel(Label(level)) == Some(TRACE)
  {
  }

  /** The line `[<label>] [<ns>] <s>`: where each part sits in it. */
  function Line(name: string, ns: string, s: string): (r: string)
    ensures |r| == |name| + |ns| + |s| + 6
    ensures r[0] == '[' && r[1..1 + |name|] == name
    ensures r[1 + |name|..4 + |name|] == "] ["
    ensures r[4 + |name|..4 + |name| + |ns|] == ns
    ensures r[4 + |name| + |ns|..6 + |name| + |ns|] == "] "
    ensures r[6 + |name| + |ns|..] == s
  {
    var r := "[" + name + "] [" + ns + "] " + s;
    assert r[1..1 + |name|] == name;
    assert r[4 + |name|..4 + |name| + |ns|] == ns;
    r
  }

  datatype Parsed = Parsed(name: string, ns: string, msg: string)

  /** The first index at or after `from` holding `c`. */
  function IndexOf(s: string, c: char, from: nat): (r: Option<nat>)
    ensures r.Some? ==> from <= r.value < |s| && s[r.value] == c
    ensures r.Some? ==> forall k :: from <= k < r.value ==> s[k] != c
    ensures r.None? ==> forall k :: from <= k < |s| ==> s[k] != c
    decreases |s| - from
  {
    if from >= |s| then None
    else if s[from] == c then Some(from)
    else IndexOf(s, c, from + 1)
  }

  /** Splits a line into label, namespace and message, taking the first
      `]` as the end of each bracketed field. */
  function ParseLine(line: string): Option<Parsed> {
    if |line| == 0 || line[0] != '[' then None
    else match IndexOf(line, ']', 1)
      case None => None
      case Some(i) =>
        if i + 3 > |line| || line[i..i + 3] != "] [" then None
        else match IndexOf(line, ']', i + 3)
          case None => None
          case Some(j) =>
            if j + 2 > |line| || line[j..j + 2] != "] " then None
            else Some(Parsed(line[1..i], line[i + 3..j], line[j + 2..]))
  }

  /** A line is read back into its three parts whenever neither the label
      nor the namespace holds a `]`. */
  lemma LineRoundTrip(name: string, ns: string, s: string)
    requires ']' !in name && ']' !in ns
    ensures ParseLine(Line(name, ns, s)) == Some(Parsed(name, ns, s))
  {
    var line := Line(name, ns, s);
    var i := 1 + |name|;
    var j := i + 3 + |ns|;
    assert forall k :: 1 <= k < i ==> line[k] == name[k - 1];
    assert line[i..i + 3] == "] [";
    assert line[i] == ']';
    assert IndexOf(line, ']', 1) == Some(i);
    assert line[i + 3..j] == ns;
    assert forall k :: i + 3 <= k < j ==> line[k] == ns[k - i - 3];
    assert line[j..j + 2] == "] ";
    assert line[j] == ']';
    assert IndexOf(line, ']', i + 3) == Some(j);
    assert line[j + 2..] == s;
  }

  // ---------------------------------------------------------------------
  // The gate and the level methods

  /** `print`: the line for `level`, if the global threshold lets it through. */
  function Print(threshold: int, level: int, ns: string, s: string): (r: Option<string>)
    ensures r.Some? <==> level <= threshold
    ensures r.Some? ==> r.value == Line(Label(level), ns, s)
  {
    if threshold >= level then Some(Line(Label(level), ns, s)) else None
  }

  /** `PrintColour`: `print` of the message wrapped in bold `colour`. */
  function PrintColour(gl: GoLog, threshold: int, level: int, s: string, colour: Colour): (r: Option<string>)
    ensures r.Some? <==> level <= threshold
    ensures r.Some? ==> r.value == Line(Label(level), gl.ns, Wrap(colour, s))
  {
    Print(threshold, level, gl.ns, Wrap(colour, s))
  }

  function Fatal(gl: GoLog, threshold: int, s: string): (r: Emission<string>)
    ensures r.line.Some? <==> FATAL <= threshold
    ensures r.line.Some? ==> r.line.value == Line("FATAL", gl.ns, Wrap(RED, s))
    ensures !r.exited
  {
    Emission(PrintColour(gl, threshold, FATAL, s, RED), false)
  }

  function Error(gl: GoLog, threshold: int, s: string): (r: Emission<string>)
    ensures r.line.Some? <==> ERROR <= threshold
    ensures r.line.Some? ==> r.line.value == Line("ERROR", gl.ns, Wrap(RED, s))
    ensures !r.exited
  {
    Emission(PrintColour(gl, threshold, ERROR, s, RED), false)
  }

  function Warn(gl: GoLog, threshold: int, s: string): (r: Emission<string>)
    ensures r.line.Some? <==> WARN <= threshold
    ensures r.line.Some? ==> r.line.value == Line("WARN", gl.ns, Wrap(YELLOW, s))
    ensures !r.exited
  {
    Emission(PrintColour(gl, threshold, WARN, s, YELLOW), false)
  }

  function Info(gl: GoLog, threshold: int, s: string): (r: Emission<string>)
    ensures r.line.Some? <==> INFO <= threshold
    ensures r.line.Some? ==> r.line.value == Line("INFO", gl.ns, Wrap(GREEN, s))
    ensures !r.exited
  {
    Emission(PrintColour(gl, threshold, INFO, s, GREEN), false)
  }

  function Debug(gl: GoLog, threshold: int, s: string): (r: Emission<string>)
    ensures r.line.Some? <==> DEBUG <= threshold
    ensures r.line.Some? ==> r.line.value == Line("DEBUG", gl.ns, s)
    ensures !r.exited
  {
    Emission(Print(threshold, DEBUG, gl.ns, s), false)
  }

  function Trace(gl: GoLog, threshold: int, s: string): (r: Emission<string>)
    ensures r.line.Some? <==> TRACE <= threshold
    ensures r.line.Some? ==> r.line.value == Line("TRACE", gl.ns, s)
    ensures !r.exited
  {
    Emission(Print(threshold, TRACE, gl.ns, s), false)
  }

  /** The six methods, by the level they log at: each gates at its own
      level, labels with its own level, colours the message for FATAL..INFO,
      and none exits. */
  function Method(level: int, gl: GoLog, threshold: int, s: string): (r: Emission<string>)
    requires FATAL <= level <= TRACE
    ensures r.line.Some? <==> level <= threshold
    ensures r.line.Some? ==>
      r.line.value == Line(Label(level), gl.ns, if level <= INFO then Wrap(ColourFor(level), s) else s)
    ensures !r.exited
  {
    if level == FATAL then Fatal(gl, threshold, s)
    else if level == ERROR then Error(gl, threshold, s)
    else if level == WARN then Warn(gl, threshold, s)
    else if level == INFO then Info(gl, threshold, s)
    else if level == DEBUG then Debug(gl, threshold, s)
    else Trace(gl, threshold, s)
  }

  // ---------------------------------------------------------------------
  // Properties of the gate

  /** Raising the threshold never hides a message that was shown. */
  lemma VisibilityMonotone(level: int, t: int, t': int, ns: string, s: string)
    requires t <= t'
    ensures Print(t, level, ns, s).Some? ==> Print(t', level, ns, s) == Print(t, level, ns, s)
  {
  }

  /** With the threshold at OFF no method writes anything. */
  lemma SilentWhenOff(gl: GoLog, level: int, s: string)
    requires FATAL <= level <= TRACE
    ensures Method(level, gl, OFF, s).line.None?
  {
  }

  /** At the initial threshold Fatal, Error, Warn and Info write, Debug and
      Trace do not. */
  lemma DefaultThreshold(gl: GoLog, level: int, s: string)
    requires FATAL <= level <= TRACE
    ensures Method(level, gl, DefaultLoggingLevel, s).line.Some? <==> level <= INFO
  {
  }

  /** Every method of the plain logger returns to its caller, Fatal included. */
  lemma NoMethodExits(gl: GoLog, level: int, threshold: int, s: string)
    requires FATAL <= level <= TRACE
    ensures !Method(level, gl, threshold, s).exited
  {
  }

  /** What a reader of the output recovers from a written line: the level
      (for FATAL to TRACE), the namespace, and the message, still wrapped in
      its colour for the four coloured methods. */
  lemma EmittedLineReadsBack(gl: GoLog, level: int, threshold: int, s: string)
    requires FATAL <= level <= TRACE
    requires ']' !in gl.ns
    requires level <= threshold
    ensures var line := Method(level, gl, threshold, s).line.value;
      && ParseLine(line).Some?
      && LevelOfLabel(ParseLine(line).value.name) == Some(level)
      && ParseLine(line).value.ns == gl.ns
      && (level <= INFO ==> Unwrap(ColourFor(level), ParseLine(line).value.msg) == Some(s))
      && (level > INFO ==> ParseLine(line).value.msg == s)
  {
    var line := Method(level, gl, threshold, s).line.value;
    var msg := if level <= INFO then Wrap(ColourFor(level), s) else s;
    assert line == Line(Label(level), gl.ns, msg);
    LineRoundTrip(Label(level), gl.ns, msg);
    LabelNamesLevel(level);
    if level <= INFO {
      WrapRoundTrip(ColourFor(level), s);
    }
  }

  /** The colour each coloured method uses. */
  function ColourFor(level: int): Colour {
    if level == FATAL || level == ERROR then RED
    else if level == WARN then YELLOW
    else GREEN
  }
}

=== FILE: gozerolog.dfy ===
/** The zerolog wrapper of the root package (`GoZeroLog`): its own copy of
    the level translation, which has no DISABLED arm and works on plain int
    levels, the constructors that store a namespace, and the level methods,
    none of which reads that namespace. The root package's `formatString`
    is outside the model and is passed in as `fmt`. */
module GoZeroLog {
  import opened Common
  import Golog
  import opened ZerologApi
  import ZeroLogBackend

  /** `setLoggerLevel`: the calls made to `set`. The DEBUG arm is empty and
      does not fall through; OFF, INFO and every int outside the listed arms
      reach the default arm. */
  function SetLoggerLevel(level: int): (calls: seq<ZLevel>)
    ensures |calls| <= 1
    ensures calls == [] <==> level == Golog.DEBUG
    ensures Disabled !in calls
    ensures level == Golog.FATAL ==> calls == [FatalLevel]
    ensures level == Golog.ERROR ==> calls == [ErrorLevel]
    ensures level == Golog.WARN ==> calls == [WarnLevel]
    ensures level == Golog.TRACE ==> calls == [DebugLevel]
    ensures level !in ZeroLogBackend.CaseLevels ==> calls == [InfoLevel]
  {
    if level == Golog.FATAL then [FatalLevel]
    else if level == Golog.ERROR then [ErrorLevel]
    else if level == Golog.WARN then [WarnLevel]
    else if level == Golog.DEBUG then []
    else if level == Golog.TRACE then [DebugLevel]
    else [InfoLevel]
  }

  /** `SetZeroGlobalLevel`: zerolog's global level after the call. */
  function SetZeroGlobalLevel(current: ZLevel, level: int): (r: ZLevel)
    ensures level == Golog.DEBUG ==> r == current
    ensures level != Golog.DEBUG ==> [r] == SetLoggerLevel(level)
    ensures r == Disabled ==> current == Disabled
  {
    AfterCalls(current, SetLoggerLevel(level))
  }

  /** Setting the level to OFF switches this backend to info, not off. */
  lemma OffDoesNotDisable(current: ZLevel)
    ensures SetLoggerLevel(Golog.OFF) == [InfoLevel]
    ensures SetZeroGlobalLevel(current, Golog.OFF) == InfoLevel
  {
  }

  /** The two translations agree on every level the package-level switch
      names, and on every other level except the DISABLED ordinal. */
  lemma AgreesWithBackend(disabled: int, level: int)
    ensures SetLoggerLevel(level) == ZeroLogBackend.SetLoggerLevel(disabled, level)
      <==> (level in ZeroLogBackend.CaseLevels || level != disabled)
  {
  }

  /** On FATAL..TRACE the two translations coincide whenever the DISABLED
      ordinal lies outside that range. */
  lemma AgreesOnNamedLevels(disabled: int, level: int)
    requires !(Golog.FATAL <= disabled <= Golog.TRACE)
    requires Golog.FATAL <= level <= Golog.TRACE
    ensures SetLoggerLevel(level) == ZeroLogBackend.SetLoggerLevel(disabled, level)
  {
    AgreesWithBackend(disabled, level);
  }

  /** A `GoZeroLog`: its namespace, its zerolog logger, and the context that
      logger was built from (kept as the logger state it captures). */
  datatype GoZeroLog = GoZeroLog(ns: string, zl: ZLogger, context: ZLogger)

  /** `NewZeroLogger`: JSON to standard error. */
  function NewZeroLogger(ns: string): (r: GoZeroLog)
    ensures r.ns == ns && r.zl.sink == Stderr && r.zl.fields == []
    ensures r.context == r.zl
  {
    GoZeroLog(ns, StderrLogger, StderrLogger)
  }

  /** `NewPrettyZeroLogger`: the human-readable console writer. */
  function NewPrettyZeroLogger(ns: string): (r: GoZeroLog)
    ensures r.ns == ns && r.zl.sink == ConsoleWriter && r.zl.fields == []
    ensures r.context == r.zl
  {
    var zl := ZLogger([], ConsoleWriter);
    GoZeroLog(ns, zl, zl)
  }

  /** `SubLogger`: a logger for `ns` over a copy of this one's zerolog logger. */
  function SubLogger(log: GoZeroLog, ns: string): (r: GoZeroLog)
    ensures r.ns == ns && r.zl == log.zl && r.context == log.zl
  {
    GoZeroLog(ns, log.zl, log.zl)
  }

  /** The method `SetLoggerLevel`: the calls made to `log.zl.Level`, whose
      result the source drops, and the logger after the call. */
  function SetInstanceLevel(log: GoZeroLog, level: int): (r: (GoZeroLog, seq<ZLevel>))
    ensures r.0 == log
    ensures |r.1| <= 1 && Disabled !in r.1
  {
    (log, SetLoggerLevel(level))
  }

  /** The global setter and the instance setter receive the same argument. */
  lemma InstanceAndGlobalShareMapping(log: GoZeroLog, current: ZLevel, level: int)
    ensures AfterCalls(current, SetInstanceLevel(log, level).1) == SetZeroGlobalLevel(current, level)
  {
  }

  function Fatal(fmt: Formatter, log: GoZeroLog, format: string, params: seq<Arg>): (r: ZEvent)
    ensures r.logger == log.zl && r.level == FatalLevel && r.msg == fmt(format, params)
  {
    ZEvent(log.zl, FatalLevel, fmt(format, params))
  }

  function Error(fmt: Formatter, log: GoZeroLog, format: string, params: seq<Arg>): (r: ZEvent)
    ensures r.logger == log.zl && r.level == ErrorLevel && r.msg == fmt(format, params)
  {
    ZEvent(log.zl, ErrorLevel, fmt(format, params))
  }

  function Warn(fmt: Formatter, log: GoZeroLog, format: string, params: seq<Arg>): (r: ZEvent)
    ensures r.logger == log.zl && r.level == WarnLevel && r.msg == fmt(format, params)
  {
    ZEvent(log.zl, WarnLevel, fmt(format, params))
  }

  function Info(fmt: Formatter, log: GoZeroLog, format: string, params: seq<Arg>): (r: ZEvent)
    ensures r.logger == log.zl && r.level == InfoLevel && r.msg == fmt(format, params)
  {
    ZEvent(log.zl, InfoLevel, fmt(format, params))
  }

  function Debug(fmt: Formatter, log: GoZeroLog, format: string, params: seq<Arg>): (r: ZEvent)
    ensures r.logger == log.zl && r.level == DebugLevel && r.msg == fmt(format, params)
  {
    ZEvent(log.zl, DebugLevel, fmt(format, params))
  }

  /** `Trace`: formatted, then passed to `Debug` as its format. */
  function Trace(fmt: Formatter, log: GoZeroLog, format: string, params: seq<Arg>): (r: ZEvent)
    ensures r == Debug(fmt, log, fmt(format, params), [])
    ensures r.level == DebugLevel && r.logger == log.zl
  {
    Debug(fmt, log, fmt(format, params), [])
  }

  /** The six methods, by the golog level they stand for. */
  function Method(level: int, fmt: Formatter, log: GoZeroLog, format: string, params: seq<Arg>): (r: ZEvent)
    requires Golog.FATAL <= level <= Golog.TRACE
    ensures r.logger == log.zl
    ensures level != Golog.TRACE ==> r.msg == fmt(format, params)
    ensures level == Golog.TRACE ==> r.msg == fmt(fmt(format, params), [])
  {
    if level == Golog.FATAL then Fatal(fmt, log, format, params)
    else if level == Golog.ERROR then Error(fmt, log, format, params)
    else if level == Golog.WARN then Warn(fmt, log, format, params)
    else if level == Golog.INFO then Info(fmt, log, format, params)
    else if level == Golog.DEBUG then Debug(fmt, log, format, params)
    else Trace(fmt, log, format, params)
  }

  /** The namespace a `GoZeroLog` stores never reaches zerolog: two loggers
      that differ only in it send the same events. */
  lemma NamespaceNotRead(level: int, fmt: Formatter, log: GoZeroLog, ns: string, format: string, params: seq<Arg>)
    requires Golog.FATAL <= level <= Golog.TRACE
    ensures Method(level, fmt, log.(ns := ns), format, params) == Method(level, fmt, log, format, params)
  {
  }

  /** Each method sends its message at the zerolog level the translation
      gives its golog level, except DEBUG, whose arm sets nothing while
      `Debug` still sends at debug. */
  lemma MethodSeverityMatchesTranslation(level: int, fmt: Formatter, log: GoZeroLog, format: string, params: seq<Arg>)
    requires Golog.FATAL <= level <= Golog.TRACE
    ensures level != Golog.DEBUG ==> SetLoggerLevel(level) == [Method(level, fmt, log, format, params).level]
    ensures level == Golog.DEBUG ==>
      SetLoggerLevel(level) == [] && Method(level, fmt, log, format, params).level == DebugLevel
  {
  }
}

=== FILE: options.dfy ===
/** The option loop shared by the constructors of the pretty logger and the
    zerolog wrapper: configuration functions are applied to a fresh logger
    in list order, and the first one that returns an error ends the
    construction with that error.

    In both sources the only option that can fail is the one that opens an
    output file, and whether it fails does not depend on the logger being
    configured; an option is therefore described by its effect on the
    logger and by the error it may report. */
module Options {
  import opened Common

  /** The logger after every option's effect, in order, ignoring failures. */
  function Fold<S, O>(effect: (S, O) -> S, s: S, opts: seq<O>): S
    decreases |opts|
  {
    if opts == [] then s else Fold(effect, effect(s, opts[0]), opts[1..])
  }

  /** The constructor's loop, as a recursive definition. */
  function Run<S, O, E>(effect: (S, O) -> S, failure: O -> Option<E>, s: S, opts: seq<O>): Result<S, E>
    decreases |opts|
  {
    if opts == [] then Success(s)
    else if failure(opts[0]).Some? then Failure(failure(opts[0]).value)
    else Run(effect, failure, effect(s, opts[0]), opts[1..])
  }

  /** The index of the first option that fails, if any. */
  function FirstFailure<O, E>(failure: O -> Option<E>, opts: seq<O>): (r: Option<nat>)
    ensures r.Some? ==> r.value < |opts| && failure(opts[r.value]).Some?
    ensures r.Some? ==> forall j :: 0 <= j < r.value ==> failure(opts[j]).None?
    ensures r.None? <==> forall j :: 0 <= j < |opts| ==> failure(opts[j]).None?
    decreases |opts|
  {
    if opts == [] then None
    else if failure(opts[0]).Some? then Some(0)
    else match FirstFailure(failure, opts[1..])
      case None => None
      case Some(i) => Some(i + 1)
  }

  lemma {:induction false} FoldSnoc<S, O>(effect: (S, O) -> S, s: S, opts: seq<O>, o: O)
    ensures Fold(effect, s, opts + [o]) == effect(Fold(effect, s, opts), o)
    decreases |opts|
  {
    if opts != [] {
      assert (opts + [o])[1..] == opts[1..] + [o];
      FoldSnoc(effect, effect(s, opts[0]), opts[1..], o);
    }
  }

  /** The loop either ends with the error of the first failing option or,
      when no option fails, with every option's effect applied in order. */
  lemma {:induction false} RunOutcome<S, O, E>(effect: (S, O) -> S, failure: O -> Option<E>, s: S, opts: seq<O>)
    ensures FirstFailure(failure, opts).None? ==> Run(effect, failure, s, opts) == Success(Fold(effect, s, opts))
    ensures FirstFailure(failure, opts).Some? ==>
      Run(effect, failure, s, opts) == Failure(failure(opts[FirstFailure(failure, opts).value]).value)
    decreases |opts|
  {
    if opts != [] && failure(opts[0]).None? {
      RunOutcome(effect, failure, effect(s, opts[0]), opts[1..]);
    }
  }

  lemma {:induction false} RunSplit<S, O, E>(effect: (S, O) -> S, failure: O -> Option<E>, s: S, opts: seq<O>, i: nat)
    requires i <= |opts|
    requires forall j :: 0 <= j < i ==> failure(opts[j]).None?
    ensures Run(effect, failure, s, opts) == Run(effect, failure, Fold(effect, s, opts[..i]), opts[i..])
    decreases i
  {
    if i > 0 {
      assert opts[1..][..i - 1] == opts[..i][1..];
      assert opts[1..][i - 1..] == opts[i..];
      RunSplit(effect, failure, effect(s, opts[0]), opts[1..], i - 1);
    }
  }

  /** The constructor's loop: applies the options in order and stops at the
      first failure. `applied` counts the options that were invoked. */
  method ApplyInOrder<S, O, E>(effect: (S, O) -> S, failure: O -> Option<E>, s: S, opts: seq<O>)
    returns (r: Result<S, E>, applied: nat)
    ensures r == Run(effect, failure, s, opts)
    ensures FirstFailure(failure, opts).None? ==> r == Success(Fold(effect, s, opts)) && applied == |opts|
    ensures FirstFailure(failure, opts).Some? ==>
      && applied == FirstFailure(failure, opts).value + 1
      && r == Failure(failure(opts[applied - 1]).value)
  {
    var cur := s;
    var i := 0;
    while i < |opts|
      invariant 0 <= i <= |opts|
      invariant forall j :: 0 <= j < i ==> failure(opts[j]).None?
      invariant cur == Fold(effect, s, opts[..i])
    {
      var err := failure(opts[i]);
      if err.Some? {
        RunSplit(effect, failure, s, opts, i);
        RunOutcome(effect, failure, s, opts);
        return Failure(err.value), i + 1;
      }
      assert opts[..i + 1] == opts[..i] + [opts[i]];
      FoldSnoc(effect, s, opts[..i], opts[i]);
      cur := effect(cur, opts[i]);
      i := i + 1;
    }
    assert opts[..i] == opts;
    RunOutcome(effect, failure, s, opts);
    return Success(cur), i;
  }
}

=== FILE: prettylog.dfy ===
/** The pretty console logger (package prettylog): a logger record holding
    its own level and namespace, the option loop of `New`, the gate that
    lets a message through when either the logger's level or the global
    level admits it, the coloured level label, and `Fatal`'s exit.

    The global level (`golog.GlobalLevel()`) is a parameter `globalLevel`;
    `golog.Level` is an int type whose FATAL..TRACE ordinals are those of
    the root package, and its zero value (the level of a logger no option
    set) is a parameter `zero`. The colour helpers, `Level.String` and
    `util.FormatString` are outside the model: a label and a message text
    are kept as terms naming the helper call that produces them, and
    `Render` turns a line into characters given those helpers. */
module PrettyLog {
  import opened Common
  import Options
  import Golog

  // log.Ldate and log.Ltime, the flags of the default output
  const LDATE: int := 1
  const LTIME: int := 2

  datatype Dest = Stdout | File(path: string)

  /** The `*log.Logger` the lines go to: destination and prefix flags. */
  datatype Out = Out(dest: Dest, flags: int)

  datatype PrettyLogger = PrettyLogger(file: Option<string>, out: Out, level: int, ns: string)

  /** The `WithConfiguration` functions. `opens` is whether `os.OpenFile`
      succeeds on `filename`; the file system is outside the model. */
  datatype Config =
    | WithNameSpace(ns: string)
    | WithFlags(flag: int)
    | WithLevel(level: int)
    | WithFileOutput(filename: string, opens: bool)

  datatype OpenError = OpenError(filename: string)

  /** The logger `New` starts from, before any option. */
  function Initial(zero: int): (r: PrettyLogger)
    ensures r.ns == "" && r.level == zero && r.file.None?
    ensures r.out.dest == Stdout && r.out.flags == LDATE + LTIME
  {
    PrettyLogger(None, Out(Stdout, LDATE + LTIME), zero, "")
  }

  /** `SetLevel`: replaces the level and nothing else. */
  function SetLevel(pl: PrettyLogger, level: int): (r: PrettyLogger)
    ensures r.level == level
    ensures r.ns == pl.ns && r.out == pl.out && r.file == pl.file
  {
    pl.(level := level)
  }

  lemma SetLevelLastWins(pl: PrettyLogger, a: int, b: int)
    ensures SetLevel(SetLevel(pl, a), b) == SetLevel(pl, b)
  {
  }

  /** What an option does to the logger when it succeeds: each option sets
      its own fields and leaves the others as they were. */
  function Effect(pl: PrettyLogger, c: Config): (r: PrettyLogger)
    ensures c.WithNameSpace? ==>
      r.ns == c.ns && r.level == pl.level && r.out == pl.out && r.file == pl.file
    ensures c.WithFlags? ==>
      r.out.flags == c.flag && r.out.dest == pl.out.dest && r.level == pl.level && r.ns == pl.ns && r.file == pl.file
    ensures c.WithLevel? ==>
      r.level == c.level && r.ns == pl.ns && r.out == pl.out && r.file == pl.file
    ensures c.WithFileOutput? ==>
      r.file == Some(c.filename) && r.out.dest == File(c.filename) && r.out.flags == pl.out.flags
      && r.level == pl.level && r.ns == pl.ns
  {
    match c
    case WithNameSpace(ns) => pl.(ns := ns)
    case WithFlags(flag) => pl.(out := pl.out.(flags := flag))
    case WithLevel(level) => SetLevel(pl, level)
    case WithFileOutput(filename, _) => pl.(file := Some(filename), out := pl.out.(dest := File(filename)))
  }

  /** The error an option returns, if any: only a file that cannot be
      opened fails, and the error names that file. */
  function OpenFailure(c: Config): (r: Option<OpenError>)
    ensures r.Some? <==> c.WithFileOutput? && !c.opens
    ensures r.Some? ==> r.value.filename == c.filename
  {
    if c.WithFileOutput? && !c.opens then Some(OpenError(c.filename)) else None
  }

  /** `WithLevel(l)` has exactly the effect of `SetLevel(l)` and never fails. */
  lemma WithLevelIsSetLevel(pl: PrettyLogger, l: int)
    ensures Effect(pl, WithLevel(l)) == SetLevel(pl, l)
    ensures OpenFailure(WithLevel(l)).None?
  {
  }

  /** The namespace the last `WithNameSpace` in the list sets, or `dflt`. */
  function LastNamespace(dflt: string, confs: seq<Config>): string
    decreases |confs|
  {
    if confs == [] then dflt
    else if confs[|confs| - 1].WithNameSpace? then confs[|confs| - 1].ns
    else LastNamespace(dflt, confs[..|confs| - 1])
  }

  /** The level the last `WithLevel` in the list sets, or `dflt`. */
  function LastLevel(dflt: int, confs: seq<Config>): int
    decreases |confs|
  {
    if confs == [] then dflt
    else if confs[|confs| - 1].WithLevel? then confs[|confs| - 1].level
    else LastLevel(dflt, confs[..|confs| - 1])
  }

  lemma {:induction false} ConfiguredNamespace(pl: PrettyLogger, confs: seq<Config>)
    ensures Options.Fold(Effect, pl, confs).ns == LastNamespace(pl.ns, confs)
    decreases |confs|
  {
    if confs != [] {
      var init, last := confs[..|confs| - 1], confs[|confs| - 1];
      assert confs == init + [last];
      Options.FoldSnoc(Effect, pl, init, last);
      ConfiguredNamespace(pl, init);
    }
  }

  lemma {:induction false} ConfiguredLevel(pl: PrettyLogger, confs: seq<Config>)
    ensures Options.Fold(Effect, pl, confs).level == LastLevel(pl.level, confs)
    decreases |confs|
  {
    if confs != [] {
      var init, last := confs[..|confs| - 1], confs[|confs| - 1];
      assert confs == init + [last];
      Options.FoldSnoc(Effect, pl, init, last);
      ConfiguredLevel(pl, init);
    }
  }

  /** `New`: applies the options in order to a fresh logger; the first
      failing option ends it with that option's error and no logger. */
  method New(zero: int, confs: seq<Config>) returns (r: Result<PrettyLogger, OpenError>, applied: nat)
    ensures r.Failure? <==> exists i :: 0 <= i < |confs| && OpenFailure(confs[i]).Some?
    ensures r.Failure? ==>
      && 1 <= applied <= |confs|
      && confs[applied - 1] == WithFileOutput(r.error.filename, false)
      && forall j :: 0 <= j < applied - 1 ==> OpenFailure(confs[j]).None?
    ensures r.Success? ==> applied == |confs|
    ensures r.Success? ==> r.value.ns == LastNamespace("", confs)
    ensures r.Success? ==> r.value.level == LastLevel(zero, confs)
    ensures r.Success? ==> r.value == Options.Fold(Effect, Initial(zero), confs)
  {
    r, applied := Options.ApplyInOrder(Effect, OpenFailure, Initial(zero), confs);
    ConfiguredNamespace(Initial(zero), confs);
    ConfiguredLevel(Initial(zero), confs);
  }

  // ---------------------------------------------------------------------
  // The gate

  function Max(a: int, b: int): int {
    if a >= b then a else b
  }

  /** Whether a message at `level` is printed: the logger's own level and
      the global level each admit it, and either one suffices; the effective
      threshold is the more verbose of the two. */
  function Visible(pl: PrettyLogger, globalLevel: int, level: int): (r: bool)
    ensures r <==> level <= Max(pl.level, globalLevel)
  {
    level <= pl.level || level <= globalLevel
  }

  /** Whatever the global level shows is shown, whatever level the logger
      was given: its own level can only widen what gets through. */
  lemma InstanceLevelOnlyWidens(pl: PrettyLogger, globalLevel: int, level: int, l: int)
    requires level <= globalLevel
    ensures Visible(SetLevel(pl, l), globalLevel, level)
  {
  }

  /** An illustration of `InstanceLevelOnlyWidens`: a logger whose own
      level is ERROR still prints INFO when the global level is DEBUG. */
  lemma InstanceLevelDoesNotNarrow(pl: PrettyLogger)
    ensures Visible(SetLevel(pl, Golog.ERROR), Golog.DEBUG, Golog.INFO)
  {
  }

  /** Raising either threshold never hides a message that was shown. */
  lemma VisibilityMonotone(pl: PrettyLogger, g: int, g': int, l': int, level: int)
    requires g <= g' && pl.level <= l'
    ensures Visible(pl, g, level) ==> Visible(SetLevel(pl, l'), g', level)
  {
  }

  // ---------------------------------------------------------------------
  // Labels, texts and lines

  /** A `color.Color`: the three the labels use, or, as `Code`, any colour
      value other than those three that a caller passes to `PrintColour`
      (so each Go colour has exactly one model value). */
  datatype Tint = Red | Yellow | Green | Code(code: int)

  /** A level label: `level.String()` as is, or one of the
      `color.Print<Tint>MaxWidth(level, width)` helpers applied to it. */
  datatype Label = Named(level: int) | Painted(tint: Tint, level: int, width: nat)

  /** A message text: as formatted, or passed through `color.PrintColor`. */
  datatype Text = Plain(s: string) | Tinted(s: string, tint: Tint)

  /** A printed line, before the `[%-5s] [%s] %s` rendering. */
  datatype PrettyLine = PrettyLine(head: Label, ns: string, text: Text)

  /** The label `print` gives `level`. The FATAL case of the source's
      switch is empty, so FATAL keeps its plain name. */
  function LabelOf(level: int): (r: Label)
    ensures r.level == level
    ensures r.Named? <==> level !in {Golog.ERROR, Golog.WARN, Golog.INFO}
    ensures level == Golog.ERROR ==> r == Painted(Red, level, 5)
    ensures level == Golog.WARN ==> r == Painted(Yellow, level, 5)
    ensures level == Golog.INFO ==> r == Painted(Green, level, 5)
  {
    if level == Golog.FATAL then Named(level)
    else if level == Golog.ERROR then Painted(Red, level, 5)
    else if level == Golog.WARN then Painted(Yellow, level, 5)
    else if level == Golog.INFO then Painted(Green, level, 5)
    else Named(level)
  }

  /** `print`: the line for `level`, if the gate lets it through. */
  function Print(pl: PrettyLogger, globalLevel: int, level: int, ns: string, text: Text): (r: Option<PrettyLine>)
    ensures r.Some? <==> level <= pl.level || level <= globalLevel
    ensures r.Some? ==> r.value.head == LabelOf(level) && r.value.ns == ns && r.value.text == text
  {
    if Visible(pl, globalLevel, level) then Some(PrettyLine(LabelOf(level), ns, text)) else None
  }

  /** `PrintColour`: `print` of the tinted text under the logger's namespace. */
  function PrintColour(pl: PrettyLogger, globalLevel: int, level: int, s: string, tint: Tint): (r: Option<PrettyLine>)
    ensures r.Some? <==> Visible(pl, globalLevel, level)
    ensures r.Some? ==> r.value == PrettyLine(LabelOf(level), pl.ns, Tinted(s, tint))
  {
    Print(pl, globalLevel, level, pl.ns, Tinted(s, tint))
  }

  /** `Fatal` prints like the other methods and then exits the process,
      whether or not the line got through. */
  function Fatal(fmt: Formatter, pl: PrettyLogger, globalLevel: int, format: string, params: seq<Arg>): (r: Emission<PrettyLine>)
    ensures r.exited
    ensures r.line.Some? <==> Visible(pl, globalLevel, Golog.FATAL)
    ensures r.line.Some? ==> r.line.value == PrettyLine(Named(Golog.FATAL), pl.ns, Tinted(fmt(format, params), Red))
  {
    Emission(PrintColour(pl, globalLevel, Golog.FATAL, fmt(format, params), Red), true)
  }

  function Error(fmt: Formatter, pl: PrettyLogger, globalLevel: int, format: string, params: seq<Arg>): (r: Emission<PrettyLine>)
    ensures !r.exited
    ensures r.line.Some? <==> Visible(pl, globalLevel, Golog.ERROR)
    ensures r.line.Some? ==> r.line.value == PrettyLine(Painted(Red, Golog.ERROR, 5), pl.ns, Tinted(fmt(format, params), Red))
  {
    Emission(PrintColour(pl, globalLevel, Golog.ERROR, fmt(format, params), Red), false)
  }

  function Warn(fmt: Formatter, pl: PrettyLogger, globalLevel: int, format: string, params: seq<Arg>): (r: Emission<PrettyLine>)
    ensures !r.exited
    ensures r.line.Some? <==> Visible(pl, globalLevel, Golog.WARN)
    ensures r.line.Some? ==> r.line.value == PrettyLine(Painted(Yellow, Golog.WARN, 5), pl.ns, Tinted(fmt(format, params), Yellow))
  {
    Emission(PrintColour(pl, globalLevel, Golog.WARN, fmt(format, params), Yellow), false)
  }

  function Info(fmt: Formatter, pl: PrettyLogger, globalLevel: int, format: string, params: seq<Arg>): (r: Emission<PrettyLine>)
    ensures !r.exited
    ensures r.line.Some? <==> Visible(pl, globalLevel, Golog.INFO)
    ensures r.line.Some? ==> r.line.value == PrettyLine(Painted(Green, Golog.INFO, 5), pl.ns, Tinted(fmt(format, params), Green))
  {
    Emission(PrintColour(pl, globalLevel, Golog.INFO, fmt(format, params), Green), false)
  }

  function Debug(fmt: Formatter, pl: PrettyLogger, globalLevel: int, format: string, params: seq<Arg>): (r: Emission<PrettyLine>)
    ensures !r.exited
    ensures r.line.Some? <==> Visible(pl, globalLevel, Golog.DEBUG)
    ensures r.line.Some? ==> r.line.value == PrettyLine(Named(Golog.DEBUG), pl.ns, Plain(fmt(format, params)))
  {
    Emission(Print(pl, globalLevel, Golog.DEBUG, pl.ns, Plain(fmt(format, params))), false)
  }

  function Trace(fmt: Formatter, pl: PrettyLogger, globalLevel: int, format: string, params: seq<Arg>): (r: Emission<PrettyLine>)
    ensures !r.exited
    ensures r.line.Some? <==> Visible(pl, globalLevel, Golog.TRACE)
    ensures r.line.Some? ==> r.line.value == PrettyLine(Named(Golog.TRACE), pl.ns, Plain(fmt(format, params)))
  {
    Emission(Print(pl, globalLevel, Golog.TRACE, pl.ns, Plain(fmt(format, params))), false)
  }

  /** The six methods, by the level they log at: the formatted message is
      red for FATAL and ERROR, yellow for WARN, green for INFO, and plain
      for DEBUG and TRACE. */
  function Method(level: int, fmt: Formatter, pl: PrettyLogger, globalLevel: int, format: string, params: seq<Arg>): (r: Emission<PrettyLine>)
    requires Golog.FATAL <= level <= Golog.TRACE
    ensures r.line.Some? && level <= Golog.ERROR ==> r.line.value.text == Tinted(fmt(format, params), Red)
    ensures r.line.Some? && level == Golog.WARN ==> r.line.value.text == Tinted(fmt(format, params), Yellow)
    ensures r.line.Some? && level == Golog.INFO ==> r.line.value.text == Tinted(fmt(format, params), Green)
    ensures r.line.Some? && level >= Golog.DEBUG ==> r.line.value.text == Plain(fmt(format, params))
  {
    if level == Golog.FATAL then Fatal(fmt, pl, globalLevel, format, params)
    else if level == Golog.ERROR then Error(fmt, pl, globalLevel, format, params)
    else if level == Golog.WARN then Warn(fmt, pl, globalLevel, format, params)
    else if level == Golog.INFO then Info(fmt, pl, globalLevel, format, params)
    else if level == Golog.DEBUG then Debug(fmt, pl, globalLevel, format, params)
    else Trace(fmt, pl, globalLevel, format, params)
  }

  /** Each method gates at its own level, labels with that level, and only
      Fatal ends the process. */
  lemma MethodsGateAtOwnLevel(level: int, fmt: Formatter, pl: PrettyLogger, globalLevel: int, format: string, params: seq<Arg>)
    requires Golog.FATAL <= level <= Golog.TRACE
    ensures var e := Method(level, fmt, pl, globalLevel, format, params);
      && (e.line.Some? <==> Visible(pl, globalLevel, level))
      && (e.line.Some? ==> e.line.value.head == LabelOf(level) && e.line.value.ns == pl.ns)
      && (e.exited <==> level == Golog.FATAL)
  {
  }

  /** `Fatal` exits even when its message is filtered out. */
  lemma FatalExitsWhenFiltered(fmt: Formatter, pl: PrettyLogger, globalLevel: int, format: string, params: seq<Arg>)
    requires pl.level < Golog.FATAL && globalLevel < Golog.FATAL
    ensures Fatal(fmt, pl, globalLevel, format, params) == Emission(None, true)
  {
  }

  // ---------------------------------------------------------------------
  // Rendering

  /** The helpers the model leaves uninterpreted: `Level.String`,
      `color.Print<Tint>MaxWidth` and `color.PrintColor`. */
  datatype Renderer = Renderer(
    name: int -> string,
    paintLevel: (Tint, int, nat) -> string,
    paint: (string, Tint) -> string)

  function LabelText(rd: Renderer, l: Label): string {
    match l
    case Named(level) => rd.name(level)
    case Painted(tint, level, width) => rd.paintLevel(tint, level, width)
  }

  function TextOf(rd: Renderer, t: Text): string {
    match t
    case Plain(s) => s
    case Tinted(s, tint) => rd.paint(s, tint)
  }

  /** `%-5s`: left-justified, padded with spaces to at least `w` characters. */
  function PadRight(s: string, w: nat): (r: string)
    ensures |r| == Max(|s|, w)
    ensures r[..|s|] == s
    ensures forall k :: |s| <= k < |r| ==> r[k] == ' '
    decreases w - |s|
  {
    if |s| >= w then s else PadRight(s + " ", w)
  }

  /** The characters `print` hands to the output for a line: `[`, the
      label in a field of at least five characters padded with spaces, then
      `] [`, the namespace, `] ` and the text. */
  function Render(rd: Renderer, line: PrettyLine): (r: string)
    ensures var l := LabelText(rd, line.head);
      var w := Max(|l|, 5);
      var n := 4 + w + |line.ns|;
      && |r| == n + 2 + |TextOf(rd, line.text)|
      && r[0] == '['
      && r[1..1 + |l|] == l
      && (forall k :: 1 + |l| <= k < 1 + w ==> r[k] == ' ')
      && r[1 + w..4 + w] == "] ["
      && r[4 + w..n] == line.ns
      && r[n..n + 2] == "] "
      && r[n + 2..] == TextOf(rd, line.text)
  {
    var l := LabelText(rd, line.head);
    var p := PadRight(l, 5);
    var w := Max(|l|, 5);
    var r := "[" + p + "] [" + line.ns + "] " + TextOf(rd, line.text);
    assert r[1..1 + w] == p;
    assert r[1..1 + |l|] == p[..|l|];
    assert forall k :: 1 + |l| <= k < 1 + w ==> r[k] == p[k - 1];
    assert r[4 + w..4 + w + |line.ns|] == line.ns;
    r
  }
}

=== FILE: zerolog_api.dfy ===
/** The few parts of the zerolog library the wrappers touch, as plain
    values: its levels, the state of a `zerolog.Logger` the wrappers can
    change (context fields and output), and the event a level method
    starts. What zerolog does with an event (encoding, timestamps, its own
    level filtering, exiting on Fatal) is outside the model. */
module ZerologApi {

  datatype ZLevel = DebugLevel | InfoLevel | WarnLevel | ErrorLevel | FatalLevel | Disabled

  /** Where a zerolog logger writes: standard error as JSON, standard error
      through the human-readable `ConsoleWriter`, or an opened file. */
  datatype Sink = Stderr | ConsoleWriter | FileSink(path: string)

  /** A `zerolog.Logger`: the string fields added through its context, and
      its output. */
  datatype ZLogger = ZLogger(fields: seq<(string, string)>, sink: Sink)

  /** `zerolog.New(os.Stderr)`, also after `.With().Timestamp().Logger()`. */
  const StderrLogger: ZLogger := ZLogger([], Stderr)

  /** `zl.<Level>().Msg(msg)`: a message sent to logger `zl` at `level`. */
  datatype ZEvent = ZEvent(logger: ZLogger, level: ZLevel, msg: string)

  /** The level a level cell holds after a sequence of setter calls. */
  function AfterCalls(current: ZLevel, calls: seq<ZLevel>): ZLevel {
    if calls == [] then current else calls[|calls| - 1]
  }
}

=== FILE: zerolog_backend.dfy ===
/** The zerolog wrapper (package zerolog): the translation of a golog level
    into the zerolog level handed to a setter, its two users (the global
    level change handler and `SetLevel`), the option loop of
    `newZeroLogger`, and the level methods, with `Trace` sent at debug.

    `golog.Level` is an int type with the root package's FATAL..TRACE
    ordinals; the ordinal of `golog.DISABLED` is a parameter `disabled`.
    A setter's effect belongs to zerolog, so the translation is modelled by
    the list of arguments the setter receives. */
module ZeroLogBackend {
  import opened Common
  import Options
  import Golog
  import opened ZerologApi

  /** The levels with an arm of their own before the DISABLED arm. */
  const CaseLevels: set<int> := {Golog.FATAL, Golog.ERROR, Golog.WARN, Golog.DEBUG, Golog.TRACE}

  /** `setLoggerLevel`: the calls made to `set`. The switch takes the first
      matching arm and does not fall through, so the empty DEBUG arm calls
      nothing, and the DISABLED arm is reached only by a level that matches
      no earlier arm. */
  function SetLoggerLevel(disabled: int, level: int): (calls: seq<ZLevel>)
    ensures |calls| <= 1
    ensures calls == [] <==> level == Golog.DEBUG
    ensures level == Golog.FATAL ==> calls == [FatalLevel]
    ensures level == Golog.ERROR ==> calls == [ErrorLevel]
    ensures level == Golog.WARN ==> calls == [WarnLevel]
    ensures level == Golog.TRACE ==> calls == [DebugLevel]
    ensures level !in CaseLevels && level == disabled ==> calls == [Disabled]
    ensures level !in CaseLevels && level != disabled ==> calls == [InfoLevel]
  {
    if level == Golog.FATAL then [FatalLevel]
    else if level == Golog.ERROR then [ErrorLevel]
    else if level == Golog.WARN then [WarnLevel]
    else if level == Golog.DEBUG then []
    else if level == Golog.TRACE then [DebugLevel]
    else if level == disabled then [Disabled]
    else [InfoLevel]
  }

  /** INFO has no arm of its own and reaches the default arm, unless the
      DISABLED ordinal coincides with it. */
  lemma InfoMapsToInfoLevel(disabled: int)
    requires disabled != Golog.INFO
    ensures SetLoggerLevel(disabled, Golog.INFO) == [InfoLevel]
  {
  }

  /** The handler registered for global level changes (`setGlobalLevel`):
      zerolog's global level after the call. DEBUG leaves it as it was. */
  function SetGlobalLevel(disabled: int, current: ZLevel, level: int): (r: ZLevel)
    ensures level == Golog.DEBUG ==> r == current
    ensures level != Golog.DEBUG ==> [r] == SetLoggerLevel(disabled, level)
  {
    AfterCalls(current, SetLoggerLevel(disabled, level))
  }

  datatype ZeroLogger = ZeroLogger(zl: ZLogger, file: Option<string>)

  /** `SetLevel`: the calls made to `log.zl.Level`, and the logger after the
      call. `zl.Level` returns a new logger, which the source drops, so the
      wrapper itself is left as it was. */
  function SetLevel(disabled: int, log: ZeroLogger, level: int): (r: (ZeroLogger, seq<ZLevel>))
    ensures r.0 == log
    ensures |r.1| <= 1
  {
    (log, SetLoggerLevel(disabled, level))
  }

  /** The global handler and `SetLevel` hand their setters the same
      argument, for every level. */
  lemma SharedMapping(disabled: int, current: ZLevel, log: ZeroLogger, level: int)
    ensures AfterCalls(current, SetLevel(disabled, log, level).1) == SetGlobalLevel(disabled, current, level)
    ensures SetLevel(disabled, log, level).1 == SetLoggerLevel(disabled, level)
  {
  }

  // ---------------------------------------------------------------------
  // Construction

  /** The `WithConfiguration` functions. `opens` is whether `os.OpenFile`
      succeeds on `filename`. */
  datatype Config =
    | WithNameSpace(ns: string)
    | WithPrettyConsole
    | WithLevel(level: int)
    | WithFileOutput(filename: string, opens: bool)

  datatype OpenError = OpenError(filename: string)

  /** What an option does to the wrapper when it succeeds: each option sets
      its own part and leaves the rest as it was. `WithLevel` goes through
      `SetLevel`, which leaves the wrapper as it was. */
  function Effect(log: ZeroLogger, c: Config): (r: ZeroLogger)
    ensures c.WithNameSpace? ==>
      r.zl.fields == log.zl.fields + [("ns", c.ns)] && r.zl.sink == log.zl.sink && r.file == log.file
    ensures c.WithPrettyConsole? ==>
      r.zl.sink == ConsoleWriter && r.zl.fields == log.zl.fields && r.file == log.file
    ensures c.WithLevel? ==> r == log
    ensures c.WithFileOutput? ==>
      r.file == Some(c.filename) && r.zl.sink == FileSink(c.filename) && r.zl.fields == log.zl.fields
  {
    match c
    case WithNameSpace(ns) => log.(zl := log.zl.(fields := log.zl.fields + [("ns", ns)]))
    case WithPrettyConsole => log.(zl := log.zl.(sink := ConsoleWriter))
    case WithLevel(_) => log
    case WithFileOutput(filename, _) => log.(file := Some(filename), zl := log.zl.(sink := FileSink(filename)))
  }

  /** The error an option returns, if any: only a file that cannot be
      opened fails, and the error names that file. */
  function OpenFailure(c: Config): (r: Option<OpenError>)
    ensures r.Some? <==> c.WithFileOutput? && !c.opens
    ensures r.Some? ==> r.value.filename == c.filename
  {
    if c.WithFileOutput? && !c.opens then Some(OpenError(c.filename)) else None
  }

  lemma WithLevelIsSetLevel(disabled: int, log: ZeroLogger, l: int)
    ensures Effect(log, WithLevel(l)) == SetLevel(disabled, log, l).0
    ensures OpenFailure(WithLevel(l)).None?
  {
  }

  /** The `ns` fields the options add, in list order. */
  function NamespaceFields(confs: seq<Config>): seq<(string, string)>
    decreases |confs|
  {
    if confs == [] then []
    else if confs[|confs| - 1].WithNameSpace? then
      NamespaceFields(confs[..|confs| - 1]) + [("ns", confs[|confs| - 1].ns)]
    else NamespaceFields(confs[..|confs| - 1])
  }

  lemma {:induction false} ConfiguredFields(log: ZeroLogger, confs: seq<Config>)
    ensures Options.Fold(Effect, log, confs).zl.fields == log.zl.fields + NamespaceFields(confs)
    decreases |confs|
  {
    if confs != [] {
      var init, last := confs[..|confs| - 1], confs[|confs| - 1];
      assert confs == init + [last];
      Options.FoldSnoc(Effect, log, init, last);
      ConfiguredFields(log, init);
    }
  }

  /** `newZeroLogger`: wraps `zl` and applies the options in order; the
      first failing option ends it with that option's error and no logger. */
  method NewZeroLogger(zl: ZLogger, confs: seq<Config>) returns (r: Result<ZeroLogger, OpenError>, applied: nat)
    ensures r.Failure? <==> exists i :: 0 <= i < |confs| && OpenFailure(confs[i]).Some?
    ensures r.Failure? ==>
      && 1 <= applied <= |confs|
      && confs[applied - 1] == WithFileOutput(r.error.filename, false)
      && forall j :: 0 <= j < applied - 1 ==> OpenFailure(confs[j]).None?
    ensures r.Success? ==> applied == |confs|
    ensures r.Success? ==> r.value.zl.fields == zl.fields + NamespaceFields(confs)
    ensures r.Success? ==> r.value == Options.Fold(Effect, ZeroLogger(zl, None), confs)
  {
    r, applied := Options.ApplyInOrder(Effect, OpenFailure, ZeroLogger(zl, None), confs);
    ConfiguredFields(ZeroLogger(zl, None), confs);
  }

  /** `New`: a wrapper around a fresh JSON logger on standard error.
      `applied` is the number of options invoked. */
  method New(confs: seq<Config>) returns (r: Result<ZeroLogger, OpenError>, applied: nat)
    ensures r.Failure? <==> exists i :: 0 <= i < |confs| && OpenFailure(confs[i]).Some?
    ensures r.Failure? ==>
      && 1 <= applied <= |confs|
      && confs[applied - 1] == WithFileOutput(r.error.filename, false)
      && forall j :: 0 <= j < applied - 1 ==> OpenFailure(confs[j]).None?
    ensures r.Success? ==> applied == |confs|
    ensures r.Success? ==> r.value == Options.Fold(Effect, ZeroLogger(StderrLogger, None), confs)
    ensures r.Success? ==> r.value.zl.fields == NamespaceFields(confs)
    ensures r.Success? && (forall i :: 0 <= i < |confs| ==> confs[i].WithNameSpace?) ==> r.value.zl.sink == Stderr
  {
    r, applied := NewZeroLogger(StderrLogger, confs);
    if r.Success? && forall i :: 0 <= i < |confs| ==> confs[i].WithNameSpace? {
      SinkKeptByNamespaces(ZeroLogger(StderrLogger, None), confs);
    }
  }

  lemma {:induction false} SinkKeptByNamespaces(log: ZeroLogger, confs: seq<Config>)
    requires forall i :: 0 <= i < |confs| ==> confs[i].WithNameSpace?
    ensures Options.Fold(Effect, log, confs).zl.sink == log.zl.sink
    ensures Options.Fold(Effect, log, confs).file == log.file
    decreases |confs|
  {
    if confs != [] {
      SinkKeptByNamespaces(Effect(log, confs[0]), confs[1..]);
    }
  }

  /** `SubLogger`: a new wrapper around a copy of this one's zerolog logger,
      configured by its own options; the parent's file is not inherited. */
  method SubLogger(log: ZeroLogger, confs: seq<Config>) returns (r: Result<ZeroLogger, OpenError>, applied: nat)
    ensures r.Failure? <==> exists i :: 0 <= i < |confs| && OpenFailure(confs[i]).Some?
    ensures r.Failure? ==>
      && 1 <= applied <= |confs|
      && confs[applied - 1] == WithFileOutput(r.error.filename, false)
      && forall j :: 0 <= j < applied - 1 ==> OpenFailure(confs[j]).None?
    ensures r.Success? ==> applied == |confs|
    ensures r.Success? ==> r.value == Options.Fold(Effect, ZeroLogger(log.zl, None), confs)
    ensures r.Success? ==> r.value.zl.fields == log.zl.fields + NamespaceFields(confs)
    ensures r.Success? && (forall i :: 0 <= i < |confs| ==> !confs[i].WithFileOutput?) ==> r.value.file.None?
  {
    r, applied := NewZeroLogger(log.zl, confs);
    if r.Success? && forall i :: 0 <= i < |confs| ==> !confs[i].WithFileOutput? {
      FileKeptWithoutFileOptions(ZeroLogger(log.zl, None), confs);
    }
  }

  lemma {:induction false} FileKeptWithoutFileOptions(log: ZeroLogger, confs: seq<Config>)
    requires forall i :: 0 <= i < |confs| ==> !confs[i].WithFileOutput?
    ensures Options.Fold(Effect, log, confs).file == log.file
    decreases |confs|
  {
    if confs != [] {
      FileKeptWithoutFileOptions(Effect(log, confs[0]), confs[1..]);
    }
  }

  // ---------------------------------------------------------------------
  // Level methods

  function Fatal(fmt: Formatter, log: ZeroLogger, format: string, params: seq<Arg>): (r: ZEvent)
    ensures r.logger == log.zl && r.level == FatalLevel && r.msg == fmt(format, params)
  {
    ZEvent(log.zl, FatalLevel, fmt(format, params))
  }

  function Error(fmt: Formatter, log: ZeroLogger, format: string, params: seq<Arg>): (r: ZEvent)
    ensures r.logger == log.zl && r.level == ErrorLevel && r.msg == fmt(format, params)
  {
    ZEvent(log.zl, ErrorLevel, fmt(format, params))
  }

  function Warn(fmt: Formatter, log: ZeroLogger, format: string, params: seq<Arg>): (r: ZEvent)
    ensures r.logger == log.zl && r.level == WarnLevel && r.msg == fmt(format, params)
  {
    ZEvent(log.zl, WarnLevel, fmt(format, params))
  }

  function Info(fmt: Formatter, log: ZeroLogger, format: string, params: seq<Arg>): (r: ZEvent)
    ensures r.logger == log.zl && r.level == InfoLevel && r.msg == fmt(format, params)
  {
    ZEvent(log.zl, InfoLevel, fmt(format, params))
  }

  function Debug(fmt: Formatter, log: ZeroLogger, format: string, params: seq<Arg>): (r: ZEvent)
    ensures r.logger == log.zl && r.level == DebugLevel && r.msg == fmt(format, params)
  {
    ZEvent(log.zl, DebugLevel, fmt(format, params))
  }

  /** `Trace`: zerolog has no trace level in use here, so the message is
      formatted and the result passed to `Debug` as its format, with no
      arguments. */
  function Trace(fmt: Formatter, log: ZeroLogger, format: string, params: seq<Arg>): (r: ZEvent)
    ensures r == Debug(fmt, log, fmt(format, params), [])
    ensures r.level == DebugLevel && r.logger == log.zl
  {
    Debug(fmt, log, fmt(format, params), [])
  }

  /** The six methods, by the golog level they stand for. */
  function Method(level: int, fmt: Formatter, log: ZeroLogger, format: string, params: seq<Arg>): (r: ZEvent)
    requires Golog.FATAL <= level <= Golog.TRACE
    ensures r.logger == log.zl
    ensures level != Golog.TRACE ==> r.msg == fmt(format, params)
    ensures level == Golog.TRACE ==> r.msg == fmt(fmt(format, params), [])
  {
    if level == Golog.FATAL then Fatal(fmt, log, format, params)
    else if level == Golog.ERROR then Error(fmt, log, format, params)
    else if level == Golog.WARN then Warn(fmt, log, format, params)
    else if level == Golog.INFO then Info(fmt, log, format, params)
    else if level == Golog.DEBUG then Debug(fmt, log, format, params)
    else Trace(fmt, log, format, params)
  }

  /** Each method sends its message at the zerolog level the translation
      gives its golog level, except DEBUG, whose arm sets nothing while
      `Debug` still sends at debug. The DISABLED ordinal is assumed to lie
      outside FATAL..TRACE, as the distinct constants of golog make it. */
  lemma MethodSeverityMatchesTranslation(disabled: int, level: int, fmt: Formatter, log: ZeroLogger, format: string, params: seq<Arg>)
    requires !(Golog.FATAL <= disabled <= Golog.TRACE)
    requires Golog.FATAL <= level <= Golog.TRACE
    ensures level != Golog.DEBUG ==> SetLoggerLevel(disabled, level) == [Method(level, fmt, log, format, params).level]
    ensures level == Golog.DEBUG ==>
      SetLoggerLevel(disabled, level) == [] && Method(level, fmt, log, format, params).level == DebugLevel
  {
  }
}
